=== FILE: README.md ===
# Symbol statistics of a text, modelled in Dafny

The program reads a text and builds a frequency table for each of two
alphabets — single characters with whitespace removed, and the
whitespace-separated words of `str.split()`. For each table it prints the raw
UTF-8 size of the text without whitespace, the message size an ideal entropy
coder would reach and the size of the encoding table (all three in MiB), the
total and distinct number of symbols, the Shannon entropy, and the ten most
frequent symbols. The tables themselves are never printed.

This project models the discrete part of that computation and proves what it
promises:

- `seqs.dfy` (`Seqs`): occurrence counts and first-occurrence indices.
- `text.dfy` (`Text`): the whitespace test of `str.isspace()`, the
  whitespace-stripped text built in `compute_raw_size`, and argument-less
  `str.split()`, with the join/split round trip.
- `tally.dfy` (`Tally`): a Python dictionary as an insertion-ordered list of
  `(key, count)` items, one step of the counting loop (`Bump`) and the whole
  loop (`Tabulate`).
- `frequencies.dfy` (`Frequencies`): `characters_count` and `words_count`.
- `utf8.dfy` (`Utf8`): UTF-8 as in section 3 of RFC 3629 and the raw byte
  count.
- `ranking.dfy` (`Ranking`): the stable sort by descending count of
  `print_top_ten` and its listing of ten items.
- `entropy.dfy` (`Entropy`): `calculate_entropy`,
  `count_size_of_message_by_entropy` and `compute_encoding_table_size` over
  exact reals, with `log2` passed in as a function.
- `statistics.dfy` (`Statistics`): the integer figures behind each output block
  and how they relate across the two alphabets. The key-literal bits among them
  are never printed; they are the key-size part of the encoding table size.

A dictionary is modelled as a sequence of items rather than a `map`, because
the program's result depends on its iteration order: `sorted` is stable, so
symbols of equal count are listed in dictionary order, which is the order of
first occurrence (`Tally.TabulateOrder`).

## Model

| member | source | states |
|---|---|---|
| `Text.StripSpaces` | main.py:26-30 | the stripped text contains no whitespace and is no longer than the input |
| `Text.StripSpacesOccurrences` | main.py:26-30 | every non-whitespace character is kept exactly as often as it occurs in the text; whitespace characters are dropped |
| `Text.StripSpacesAppend` | main.py:26-30 | stripping the concatenation of two texts is the concatenation of their stripped forms |
| `Text.StripSpacesOfSpaceFree` | main.py:26-30 | a text without whitespace is returned unchanged |
| `Text.StripSpacesEmpty` | main.py:26-30 | the stripped text is empty exactly when the input is empty or all whitespace |
| `Text.Split` | main.py:64 | every token of `split()` is non-empty and contains no whitespace |
| `Text.SplitConcat` | main.py:64 | the tokens concatenated in order equal the text with its whitespace removed, the string built at lines 26-30 |
| `Text.SplitJoin` | main.py:64 | splitting non-empty, whitespace-free words joined by single spaces gives the same words back |
| `Text.SplitLayout` | main.py:64 | any text made of optional leading whitespace and then non-empty, whitespace-free words, each followed by whitespace that is non-empty between two words and may be empty after the last, splits into exactly those words: the tokens are the maximal non-whitespace runs, whatever whitespace surrounds them |
| `Text.SplitNormalises` | main.py:64 | re-joining the tokens with single spaces and splitting again gives the same tokens |
| `Tally.Bump` | main.py:48-51 | one counting step keeps keys distinct and counts positive, adds 1 to the key's count, appends a new key at the end, and raises the sum of counts by 1 |
| `Tally.BumpOther` | main.py:48-51 | one counting step leaves the counts of all other keys unchanged |
| `Tally.Tabulate` | main.py:64-68 | the table built by the counting loop has distinct keys and every count at least 1 |
| `Tally.TabulateCounts` | main.py:64-68 | the count of every symbol is its number of occurrences in the input |
| `Tally.TabulateKeys` | main.py:64-68 | a symbol is a key exactly when it occurs in the input |
| `Tally.TabulateTotal` | main.py:64-68 | the counts sum to the number of symbols read |
| `Tally.TabulateSize` | main.py:64-68 | the number of items is the number of distinct symbols |
| `Tally.TabulateOrder` | main.py:63-69 | keys are ordered by the position of their first occurrence in the input |
| `Tally.TabulateItems` | main.py:64-68 | every item's key occurs in the input and its count is that key's number of occurrences |
| `Tally.CountBelowTotal` | main.py:90-92 | every count is at most `total_elements`, so each `p` is at most 1 |
| `Tally.TotalAtLeastSize` | main.py:90 | when every count is at least 1, `total_elements` is at least `len(dictionary)` |
| `Tally.TotalFront` | main.py:90 | the sum of counts is the first count plus the sum of the others, the same sum whichever end it is added from |
| `Frequencies.CharactersCount` | main.py:35-52 | the character table has distinct keys and every count at least 1 |
| `Frequencies.CountRun` | main.py:45-51 | reading a run of `k` copies of a non-whitespace character that is not yet a key appends one item, that character with count `k`, and leaves the earlier items unchanged |
| `Frequencies.CharactersCountIsTabulate` | main.py:43-51 | counting characters while skipping whitespace equals counting the characters of the stripped text |
| `Frequencies.CharacterKeysShape` | main.py:45-51 | every key is one character; the key characters are exactly the non-whitespace characters of the text, in order of first occurrence |
| `Frequencies.CharacterTable` | main.py:45-51 | counts are at least 1; a character is a key exactly when it occurs and is not whitespace; its count is its number of occurrences; no key has another length than 1 |
| `Frequencies.CharacterTotals` | main.py:45-51 | the counts sum to the length of the stripped text, and the table has one item per distinct non-whitespace character |
| `Frequencies.WordsCount` | main.py:55-69 | the word table has distinct keys and every count at least 1 |
| `Frequencies.WordTable` | main.py:63-69 | keys are non-empty, whitespace-free tokens; every token is a key; each count is the token's number of occurrences; counts sum to the number of tokens; one item per distinct token; first-occurrence order |
| `Utf8.EncodeChar` | main.py:31 | a character encodes to as many octets as RFC 3629 assigns it, with the lead octet announcing the length and continuation octets after it |
| `Utf8.DecodeEncodeChar` | main.py:31 | decoding the octets of a character gives back its code point |
| `Utf8.Encode` | main.py:31 | the UTF-8 length of a string is the sum of its characters' widths, between 1 and 4 octets per character |
| `Utf8.EncodeAppend` | main.py:31 | the encoding of two strings one after the other is the concatenation of their encodings, so it is character by character |
| `Utf8.RawByteCount` | main.py:26-31 | the raw byte count is the sum of the UTF-8 widths of the text's non-whitespace characters |
| `Utf8.RawByteCountBounds` | main.py:26-31 | the raw byte count is the sum of widths of the non-whitespace characters, between their number and four times it, and 0 exactly for whitespace-only text |
| `Ranking.SortByCount` | main.py:78 | the ranking has as many items as the dictionary, is a permutation of its items, and has non-increasing counts |
| `Ranking.SortByCountSpec` | main.py:78 | the sort is stable: the items of each count appear in the ranking in dictionary order |
| `Ranking.StableSortUnique` | main.py:78 | two count-descending orderings that agree on the order within every count are equal, so the stable sort's result is unique |
| `Ranking.SortByCountIsStableSort` | main.py:78 | any count-descending ordering that keeps dictionary order within equal counts is the ranking the model computes |
| `Ranking.Top` | main.py:78-80 | the listing has exactly `min(n, distinct)` items, taken from the table, with non-increasing counts, and no omitted item has a larger count than a listed one |
| `Ranking.TopItem` | main.py:78-80 | every listed item is an item of the table, so its key is a key of the dictionary and, in a frequency table, its count is at least 1 |
| `Ranking.TopTenAsWritten` | main.py:78-80 | the loop as written prints the first `min(10, distinct)` ranked items and raises exactly when there are fewer than ten keys |
| `Ranking.TopTenRaisesOnSmallTable` | main.py:78-80 | a table of three items with counts 3, 2 and 1 lists exactly those three items and then raises |
| `Entropy.EntropySum` | main.py:91-93 | the sum of `p * log2(1 / p)` over the items is never negative when `log2` is non-negative from 1 on |
| `Entropy.CalculateEntropy` | main.py:83-94 | `total_elements` is at least the number of keys, and an empty table returns entropy 0 and total 0 without dividing by zero |
| `Entropy.EntropyNonNegative` | main.py:89-94 | the entropy is never negative when `log2` is non-negative from 1 on |
| `Entropy.EntropySingleSymbol` | main.py:89-94 | a table with one key has entropy `log2(1)`, which is 0, whatever its count |
| `Entropy.ProbabilitiesSumToOne` | main.py:90-92 | the probabilities `value / total_elements` of a non-empty table add up to 1 |
| `Entropy.EntropyUniform` | main.py:89-94 | `k` keys with equal counts have entropy `log2(k)` |
| `Entropy.SizeOfMessageByEntropy` | main.py:97-106 | the distinct count is the number of keys, and an empty table gives a size of 0 |
| `Entropy.MessageSizeNonNegative` | main.py:103-105 | the message size by entropy is never negative |
| `Entropy.MessageSizeSingleSymbol` | main.py:103-105 | a message of one repeated symbol has size 0 |
| `Entropy.LiteralBits` | main.py:119-121 | the key sizes add up to 8 bits per octet of the UTF-8 encoding of all keys written one after another |
| `Entropy.TableBits` | main.py:119-122 | the loop's sum is at least its key-size part, since every `log2(total / count)` term is non-negative |
| `Entropy.EncodingTableSize` | main.py:109-123 | an empty table has an encoding table size of 0 |
| `Entropy.EncodingTableAtLeastLiterals` | main.py:115-122 | the encoding table size is at least 8 bits per UTF-8 octet of the keys, since every `log2(total / count)` term is non-negative |
| `Statistics.Report` | main.py:128-140 | one output block lists `min(10, distinct)` items, has no more distinct symbols than symbols for a frequency table, a raw byte count equal to the UTF-8 size of the stripped text, and key-literal bits, the unprinted summand of the encoding table size at main.py:121, of 8 per octet of the keys |
| `Statistics.EmptyTables` | main.py:43-69 | empty or whitespace-only text yields an empty character table, an empty word table and a raw byte count of 0 |
| `Statistics.EmptyInput` | main.py:89-123 | for such text the figures of both tables are 0: raw byte count, total, distinct count and the key-literal part of the encoding table size, and the corrected listing `Ranking.Top` is empty; entropy and message size stay at their initial 0, and the encoding table size is 0 |
| `Statistics.CharacterFiguresAgree` | main.py:26-69 | the character total equals the length of the stripped text and the combined length of the words; the raw byte count lies between it and four times it; the word total is the number of tokens |
| `Statistics.SingleCharLiteralBits` | main.py:119-121 | keys of one character take 8 to 32 literal bits each |
| `Statistics.CharacterLiteralBits` | main.py:119-121 | the character table's key literals take 8 to 32 bits per distinct character |
| `Statistics.TopFigures` | main.py:78-80 | each listing has `min(10, distinct)` items, and every listed word is a token of the text with a positive count |
| `Statistics.CharacterListingRaises` | main.py:79-80 | a text with fewer than ten distinct non-whitespace characters makes the listing as written raise after printing one row per character |
| `Statistics.ThreeRuns` | main.py:45-51 | a text of three runs of distinct non-whitespace characters, `i`, `j` and `k` long, has one item per run, in the order of the runs, counting its length |
| `Statistics.AaabbcTable` | main.py:45-51 | the character table of "aaabbc" is `a: 3`, `b: 2`, `c: 1`, in that order |
| `Statistics.AaabbcListing` | main.py:78-80 | the character listing of "aaabbc" as written prints those three items and then raises |

## Left out

- Reading standard input and reconfiguring its encoding (main.py:3-15): I/O. The model starts from the decoded text.
- Every `print` and the `__main__` driver (main.py:126-155): console output. `Statistics.Report` gathers, for one table, the integer figures behind its output block (the raw byte count is printed only as `round(n / 1024**2, 4)`, main.py:31), plus the key-literal bits that the program only adds into the encoding table size (main.py:121). The driver's control flow after the listing raises is described under Findings.
- Floating point: entropy, message size and encoding table size are computed over exact reals, so rounding and the order of floating-point additions are not modelled.
- `math.log2` is a parameter of the entropy functions; the properties assume only what they state about it (non-negative from 1 on, or `log2(1) = 0`).
- The conversions `/ 1024**2` and `/ (8 * 1024**2)` and `round(..., 4)` (main.py:31, 136-137, 150-151): decimal floating-point formatting.
- Lone surrogate characters: Dafny characters are Unicode scalar values, and strict UTF-8 decoding of standard input never produces surrogates, so `encode('utf-8')` cannot fail in the model.
- `Text.IsSpace` lists the characters for which Python's `str.isspace()` holds. The general lemmas use only that the space character is whitespace, so they hold for any whitespace set that contains it. The worked example on "aaabbc" also uses that `a`, `b` and `c` are not whitespace.
- `Ranking.SortByCount`: the sort is an insertion sort, not Python's Timsort; `Ranking.StableSortUnique` shows every stable descending sort returns the same list.

## Findings

| source | as written | input that shows it | evidently intended | confidence | as-written member | corrected member |
|---|---|---|---|---|---|---|
| main.py:79-80 | the loop reads positions 0 to 9 of the ranking whatever its length; with fewer than ten distinct non-whitespace characters the run ends at main.py:140 and the word block (main.py:144-155) is never printed; with ten or more of them but fewer than ten distinct words, such as "abcdefghij", the character block completes and the run ends in the word listing at main.py:155 | the text "aaabbc" has three distinct characters, so reading position 3 raises `IndexError` | list the `min(10, n)` most frequent symbols | high; not executed | `Ranking.TopTenAsWritten` | `Ranking.Top` |

`Statistics.AaabbcListing` shows that the listing as written raises on "aaabbc" after three rows; `Statistics.CharacterListingRaises` shows the same for every text with fewer than ten distinct non-whitespace characters, empty and whitespace-only text included. The character listing comes first (main.py:140), so for every such text the uncaught `IndexError` ends the run: the word block of main.py:144-155 is never computed or printed. The word listing raises the same way at main.py:155 whenever the text has fewer than ten distinct words: for "abcdefghij" it prints one row and then fails; `Ranking.TopTenAsWritten` models both listings. The word figures the model states (`Statistics.EmptyInput`, `Statistics.TopFigures`) are those of the corrected program. `Ranking.Top` never fails and returns exactly `min(n, distinct)` items, and `Statistics.Report` uses it.

=== FILE: entropy.dfy ===
/** The entropy engine over exact reals: `calculate_entropy`,
    `count_size_of_message_by_entropy` and `compute_encoding_table_size`.
    The base-2 logarithm is a parameter (`math.log2` is a foreign function),
    and real arithmetic stands for the program's floating point. */
module Entropy {
  import opened Text
  import opened Tally
  import opened Utf8

  /** The hypotheses about `log2` the properties below need. */
  ghost predicate NonNegativeFromOne(log2: real -> real)
  {
    forall x: real :: x >= 1.0 ==> log2(x) >= 0.0
  }

  /** Every item's count is between 1 and `total`. */
  predicate CountsWithin<K>(items: seq<Entry<K>>, total: nat)
  {
    forall i :: 0 <= i < |items| ==> 1 <= items[i].count <= total
  }

  /** One iteration of the loop of `calculate_entropy`: with
      `p = count / total`, the amount `p * log2(1 / p)`. */
  function EntropyTerm(count: nat, total: nat, log2: real -> real): real
    requires 1 <= count <= total
  {
    var p := count as real / total as real;
    p * log2(1.0 / p)
  }

  /** The loop of `calculate_entropy` over `items`, starting from 0. Every
      term is non-negative when `log2` is, from 1 on, so the sum is too. */
  function EntropySum<K>(items: seq<Entry<K>>, total: nat, log2: real -> real): (r: real)
    requires CountsWithin(items, total)
    ensures NonNegativeFromOne(log2) ==> r >= 0.0
  {
    if |items| == 0 then 0.0
    else
      assert NonNegativeFromOne(log2) ==> EntropyTerm(items[0].count, total, log2) >= 0.0 by {
        if NonNegativeFromOne(log2) {
          EntropyTermNonNegative(items[0].count, total, log2);
        }
      }
      EntropyTerm(items[0].count, total, log2) + EntropySum(items[1..], total, log2)
  }

  /** The pair `calculate_entropy` returns. */
  datatype EntropyResult = EntropyResult(entropy: real, total: nat)

  lemma CountsWithinTotal<K>(t: Table<K>)
    requires ValidTable(t)
    ensures CountsWithin(t, Total(t))
  {
    forall i | 0 <= i < |t|
      ensures t[i].count <= Total(t)
    {
      CountBelowTotal(t, i);
    }
  }

  /** `calculate_entropy`: the total is the sum of the counts, the entropy the
      sum over items of `p * log2(1 / p)`. An empty table never enters the
      loop, so both stay 0 and no division by zero happens. */
  function CalculateEntropy<K(==)>(t: Table<K>, log2: real -> real): (r: EntropyResult)
    requires ValidTable(t)
    ensures r.total >= |t|
    ensures |t| == 0 ==> r == EntropyResult(0.0, 0)
  {
    CountsWithinTotal(t);
    TotalAtLeastSize(t);
    EntropyResult(EntropySum(t, Total(t), log2), Total(t))
  }

  lemma EntropyTermNonNegative(count: nat, total: nat, log2: real -> real)
    requires 1 <= count <= total && NonNegativeFromOne(log2)
    ensures EntropyTerm(count, total, log2) >= 0.0
  {
    var p := count as real / total as real;
    assert 0.0 < p <= 1.0;
    assert 1.0 / p >= 1.0;
    assert log2(1.0 / p) >= 0.0;
  }

  /** Entropy is never negative, given only that `log2` is non-negative from
      1 on. */
  lemma EntropyNonNegative<K>(t: Table<K>, log2: real -> real)
    requires ValidTable(t) && NonNegativeFromOne(log2)
    ensures CalculateEntropy(t, log2).entropy >= 0.0
  {
    CountsWithinTotal(t);
  }

  /** A single symbol, however often it occurs, has probability 1 and entropy
      `log2(1)`, which is 0. */
  lemma EntropySingleSymbol<K>(t: Table<K>, log2: real -> real)
    requires ValidTable(t) && |t| == 1 && log2(1.0) == 0.0
    ensures CalculateEntropy(t, log2).entropy == 0.0
    ensures CalculateEntropy(t, log2).total == t[0].count
  {
    assert Total(t) == t[0].count by {
      assert t[..0] == [];
    }
    CountsWithinTotal(t);
    var c := t[0].count as real;
    assert c >= 1.0;
    assert c / c == 1.0;
    assert 1.0 / 1.0 == 1.0;
    assert EntropySum(t[1..], Total(t), log2) == 0.0;
    assert EntropyTerm(t[0].count, Total(t), log2) == 1.0 * log2(1.0);
  }

  /** The probabilities `count / total` of the items. */
  function ProbabilitySum<K>(items: seq<Entry<K>>, total: nat): real
    requires CountsWithin(items, total)
  {
    if |items| == 0 then 0.0
    else items[0].count as real / total as real + ProbabilitySum(items[1..], total)
  }

  lemma {:induction false} ProbabilitySumIsRatio<K>(items: seq<Entry<K>>, total: nat)
    requires CountsWithin(items, total) && total > 0
    ensures ProbabilitySum(items, total) == Total(items) as real / total as real
  {
    if |items| > 0 {
      ProbabilitySumIsRatio(items[1..], total);
      TotalFront(items);
      SumOfRatios(items[0].count, Total(items[1..]), total);
    }
  }

  /** The sum of the probabilities `p` the entropy loop computes for a table. */
  function TotalProbability<K(==)>(t: Table<K>): real
    requires ValidTable(t)
  {
    CountsWithinTotal(t);
    ProbabilitySum(t, Total(t))
  }

  /** The probabilities of a non-empty table add up to 1: the `p` values the
      entropy loop uses form a distribution. */
  lemma ProbabilitiesSumToOne<K>(t: Table<K>)
    requires ValidTable(t) && |t| > 0
    ensures TotalProbability(t) == 1.0
  {
    var total := Total(t);
    CountsWithinTotal(t);
    TotalAtLeastSize(t);
    ProbabilitySumIsRatio(t, total);
    RatioOfSelf(total);
  }

  lemma SumOfRatios(a: nat, b: nat, n: nat)
    requires n > 0
    ensures a as real / n as real + b as real / n as real == (a + b) as real / n as real
  {
    var x := a as real / n as real;
    var y := b as real / n as real;
    assert x * n as real == a as real;
    assert y * n as real == b as real;
    assert (x + y) * n as real == (a + b) as real;
  }

  lemma RatioOfSelf(n: nat)
    requires n > 0
    ensures n as real / n as real == 1.0
  {
  }

  /** `k` symbols that each occur `m` times. */
  predicate Uniform<K>(t: Table<K>, m: nat)
  {
    forall i :: 0 <= i < |t| ==> t[i].count == m
  }

  lemma {:induction false} UniformTotal<K>(t: Table<K>, m: nat)
    requires Uniform(t, m)
    ensures Total(t) == |t| * m
  {
    if |t| > 0 {
      assert Uniform(t[1..], m) by {
        assert forall i :: 0 <= i < |t| - 1 ==> t[1..][i] == t[i + 1];
      }
      UniformTotal(t[1..], m);
      TotalFront(t);
      assert (|t| - 1) * m + m == |t| * m;
    }
  }

  /** Each of `k` equally frequent symbols has probability `1 / k`. */
  lemma UniformProbability(k: nat, m: nat)
    requires k > 0 && m > 0
    ensures m as real / (k * m) as real == 1.0 / k as real
  {
    var kr := k as real;
    var mr := m as real;
    assert (k * m) as real == kr * mr;
    assert mr / (kr * mr) == 1.0 / kr;
  }

  /** One more term `q` on top of `n - 1` of them makes `n` of them. */
  lemma AddOneTerm(n: nat, q: real)
    requires n > 0
    ensures q + (n - 1) as real * q == n as real * q
  {
  }

  lemma UniformTerm(k: nat, m: nat, log2: real -> real)
    requires k > 0 && m > 0
    ensures EntropyTerm(m, k * m, log2) == (1.0 / k as real) * log2(k as real)
  {
    UniformProbability(k, m);
    var p := m as real / (k * m) as real;
    assert 1.0 / p == k as real;
  }

  /** Items that all have count `m` contribute `q` each, where `q` is the
      term of a count of `m`. */
  lemma {:induction false} UniformEntropySum<K>(items: seq<Entry<K>>, total: nat, m: nat, q: real, log2: real -> real)
    requires Uniform(items, m) && CountsWithin(items, total)
    requires 1 <= m <= total && EntropyTerm(m, total, log2) == q
    ensures EntropySum(items, total, log2) == |items| as real * q
  {
    if |items| > 0 {
      assert items[0].count == m;
      UniformEntropySum(items[1..], total, m, q, log2);
      AddOneTerm(|items|, q);
    }
  }

  lemma KTimesKth(k: nat, l: real)
    requires k > 0
    ensures k as real * ((1.0 / k as real) * l) == l
  {
    var kr := k as real;
    assert kr * ((1.0 / kr) * l) == (kr * (1.0 / kr)) * l;
    assert kr * (1.0 / kr) == 1.0;
  }

  /** `k` symbols with equal counts have entropy `log2(k)`. */
  lemma EntropyUniform<K>(t: Table<K>, m: nat, log2: real -> real)
    requires ValidTable(t) && |t| > 0 && Uniform(t, m)
    ensures CalculateEntropy(t, log2).entropy == log2(|t| as real)
  {
    var k := |t|;
    var l := log2(k as real);
    assert m == t[0].count >= 1;
    var q := (1.0 / k as real) * l;
    UniformTotal(t, m);
    CountsWithinTotal(t);
    UniformTerm(k, m, log2);
    UniformEntropySum(t, Total(t), m, q, log2);
    KTimesKth(k, l);
    assert CalculateEntropy(t, log2).entropy == EntropySum(t, Total(t), log2);
  }

  /** `count_size_of_message_by_entropy`: the entropy times the number of
      symbols, and the number of distinct symbols. */
  datatype MessageSize = MessageSize(bits: real, distinct: nat)

  function SizeOfMessageByEntropy<K(==)>(t: Table<K>, log2: real -> real): (r: MessageSize)
    requires ValidTable(t)
    ensures r.distinct == |t|
    ensures |t| == 0 ==> r.bits == 0.0
  {
    var e := CalculateEntropy(t, log2);
    MessageSize(e.total as real * e.entropy, |t|)
  }

  /** The message-size estimate is never negative. */
  lemma MessageSizeNonNegative<K>(t: Table<K>, log2: real -> real)
    requires ValidTable(t) && NonNegativeFromOne(log2)
    ensures SizeOfMessageByEntropy(t, log2).bits >= 0.0
  {
    var e := CalculateEntropy(t, log2);
    EntropyNonNegative(t, log2);
    NonNegativeProduct(e.total as real, e.entropy);
  }

  /** A message of one repeated symbol needs no bits. */
  lemma MessageSizeSingleSymbol<K>(t: Table<K>, log2: real -> real)
    requires ValidTable(t) && |t| == 1 && log2(1.0) == 0.0
    ensures SizeOfMessageByEntropy(t, log2).bits == 0.0
  {
    EntropySingleSymbol(t, log2);
  }

  lemma NonNegativeProduct(a: real, b: real)
    requires a >= 0.0 && b >= 0.0
    ensures a * b >= 0.0
  {
  }

  /** The bits to store the key literals, eight per UTF-8 octet of each key:
      as many as the octets of all keys written one after another. */
  function LiteralBits(t: Table<string>): (bits: nat)
    ensures bits == 8 * |Encode(Concat(Keys(t)))|
  {
    if |t| == 0 then 0
    else
      assert Keys(t) == [t[0].key] + Keys(t[1..]);
      EncodeAppend(t[0].key, Concat(Keys(t[1..])));
      8 * |Encode(t[0].key)| + LiteralBits(t[1..])
  }

  /** The loop of `compute_encoding_table_size` over `items`: for each key,
      the bits of its literal plus `log2(total / count)`. */
  function TableBits(items: Table<string>, total: nat, log2: real -> real): (bits: real)
    requires CountsWithin(items, total)
    ensures NonNegativeFromOne(log2) ==> bits >= LiteralBits(items) as real
  {
    if |items| == 0 then 0.0
    else
      var ratio := total as real / items[0].count as real;
      assert NonNegativeFromOne(log2) ==> log2(ratio) >= 0.0 by {
        assert ratio >= 1.0;
      }
      (8 * |Encode(items[0].key)|) as real
        + log2(ratio)
        + TableBits(items[1..], total, log2)
  }

  /** `compute_encoding_table_size`. */
  function EncodingTableSize(t: Table<string>, log2: real -> real): (bits: real)
    requires ValidTable(t)
    ensures |t| == 0 ==> bits == 0.0
  {
    CountsWithinTotal(t);
    TableBits(t, Total(t), log2)
  }

  /** The code-length term `log2(total / count)` is never negative, so the
      encoding table takes at least the bits of its key literals. */
  lemma EncodingTableAtLeastLiterals(t: Table<string>, log2: real -> real)
    requires ValidTable(t) && NonNegativeFromOne(log2)
    ensures EncodingTableSize(t, log2) >= LiteralBits(t) as real
  {
    CountsWithinTotal(t);
  }
}

=== FILE: frequencies.dfy ===
/** The two frequency tables the program builds from one text: characters
    (`characters_count`) and words (`words_count`). */
module Frequencies {
  import opened Seqs
  import opened Text
  import opened Tally

  /** `characters_count`: walk the text left to right, skip whitespace, and
      count every other character under the one-character string it forms. */
  function CharactersCount(text: string): (t: Table<string>)
    ensures ValidTable(t)
  {
    if |text| == 0 then []
    else
      var t := CharactersCount(text[..|text| - 1]);
      var c := text[|text| - 1];
      if IsSpace(c) then t else Bump(t, [c])
  }

  /** Reading one more non-whitespace character is one more `Bump`. */
  lemma CountStep(p: string, c: char, t: Table<string>)
    requires !IsSpace(c) && CharactersCount(p) == t
    ensures CharactersCount(p + [c]) == Bump(t, [c])
  {
    var text := p + [c];
    assert text[..|text| - 1] == p;
  }

  /** Reading a non-whitespace character that is not yet a key appends it
      with count 1. */
  lemma CountFirst(p: string, c: char, t: Table<string>)
    requires !IsSpace(c) && CharactersCount(p) == t
    requires forall j :: 0 <= j < |t| ==> t[j].key != [c]
    ensures CharactersCount(p + [c]) == t + [Entry([c], 1)]
  {
    CountStep(p, c, t);
    BumpNew(t, [c]);
  }

  /** Reading again the non-whitespace character of the last item adds one
      to that item. */
  lemma CountLastAgain(p: string, c: char, t: Table<string>, n: nat)
    requires !IsSpace(c) && CharactersCount(p) == t + [Entry([c], n)]
    ensures CharactersCount(p + [c]) == t + [Entry([c], n + 1)]
  {
    CountStep(p, c, t + [Entry([c], n)]);
    BumpLast(t, [c], n);
  }

  /** `k` copies of `c`. */
  function Run(c: char, k: nat): string
  {
    if k == 0 then [] else Run(c, k - 1) + [c]
  }

  lemma RunSnoc(p: string, c: char, k: nat)
    requires k > 0
    ensures p + Run(c, k) == (p + Run(c, k - 1)) + [c]
  {
  }

  /** One more copy of the character at the end of a run adds one to its
      count. */
  lemma CountRunStep(p: string, c: char, k: nat, t: Table<string>)
    requires !IsSpace(c) && k > 1
    requires CharactersCount(p + Run(c, k - 1)) == t + [Entry([c], k - 1)]
    ensures CharactersCount(p + Run(c, k)) == t + [Entry([c], k)]
  {
    RunSnoc(p, c, k);
    CountLastAgain(p + Run(c, k - 1), c, t, k - 1);
  }

  /** Reading a run of `k` copies of a non-whitespace character that is not
      yet a key appends one item with count `k`. */
  lemma {:induction false} CountRun(p: string, c: char, k: nat, t: Table<string>)
    requires !IsSpace(c) && k > 0 && CharactersCount(p) == t
    requires forall j :: 0 <= j < |t| ==> t[j].key != [c]
    ensures CharactersCount(p + Run(c, k)) == t + [Entry([c], k)]
  {
    if k == 1 {
      assert p + Run(c, 1) == p + [c];
      CountFirst(p, c, t);
    } else {
      CountRun(p, c, k - 1, t);
      CountRunStep(p, c, k, t);
    }
  }

  /** A text that is one run of a non-whitespace character has one item. */
  lemma CountOneRun(c: char, k: nat)
    requires !IsSpace(c) && k > 0
    ensures CharactersCount(Run(c, k)) == [Entry([c], k)]
  {
    var none: Table<string> := [];
    CountRun([], c, k, none);
    assert [] + Run(c, k) == Run(c, k) && none + [Entry([c], k)] == [Entry([c], k)];
  }

  /** A run of a new character after a one-item table adds a second item. */
  lemma CountSecondRun(p: string, e: Entry<string>, c: char, k: nat)
    requires !IsSpace(c) && k > 0 && CharactersCount(p) == [e] && e.key != [c]
    ensures CharactersCount(p + Run(c, k)) == [e, Entry([c], k)]
  {
    CountRun(p, c, k, [e]);
    AppendToOne(e, Entry([c], k));
  }

  /** A run of a new character after a two-item table adds a third item. */
  lemma CountThirdRun(p: string, e: Entry<string>, f: Entry<string>, c: char, k: nat)
    requires !IsSpace(c) && k > 0 && CharactersCount(p) == [e, f]
    requires e.key != [c] && f.key != [c]
    ensures CharactersCount(p + Run(c, k)) == [e, f, Entry([c], k)]
  {
    CountRun(p, c, k, [e, f]);
    AppendToPair(e, f, Entry([c], k));
  }

  /** `words_count`: count every token of `text.split()`, in order. */
  function WordsCount(text: string): (t: Table<string>)
    ensures ValidTable(t)
  {
    Tabulate(Split(text))
  }

  /** Each character of `s` as a one-character string. */
  function Singletons(s: string): seq<string>
  {
    seq(|s|, i requires 0 <= i < |s| => [s[i]])
  }

  /** Distinct characters make distinct one-character keys. */
  lemma SingletonsDiffer(x: char, y: char)
    requires x != y
    ensures [x] != [y]
  {
    assert [x][0] == x;
  }

  lemma {:induction false} SingletonsOccurrences(s: string, c: char)
    ensures Occurrences(Singletons(s), [c]) == Occurrences(s, c)
  {
    if |s| > 0 {
      var p := s[..|s| - 1];
      assert Singletons(s)[..|s| - 1] == Singletons(p);
      SingletonsOccurrences(p, c);
    }
  }

  /** The character table is the generic counting loop run over the
      whitespace-stripped text, one character at a time. */
  lemma {:induction false} CharactersCountIsTabulate(text: string)
    ensures CharactersCount(text) == Tabulate(Singletons(StripSpaces(text)))
  {
    if |text| > 0 {
      var p := text[..|text| - 1];
      var c := text[|text| - 1];
      CharactersCountIsTabulate(p);
      if !IsSpace(c) {
        var s := Singletons(StripSpaces(text));
        assert StripSpaces(text) == StripSpaces(p) + [c];
        assert s[..|s| - 1] == Singletons(StripSpaces(p));
        assert s[|s| - 1] == [c];
      }
    }
  }

  /** Every key is a string of one character. */
  predicate SingleCharKeys(t: Table<string>)
  {
    forall i :: 0 <= i < |t| ==> |t[i].key| == 1
  }

  /** The characters the keys of a single-character-keyed table stand for. */
  function KeyChars(t: Table<string>): string
    requires SingleCharKeys(t)
  {
    seq(|t|, i requires 0 <= i < |t| => t[i].key[0])
  }

  /** In a single-character-keyed table, `[c]` is a key exactly when `c` is
      one of the key characters. */
  lemma KeyCharsMember(t: Table<string>, c: char)
    requires SingleCharKeys(t)
    ensures [c] in Keys(t) <==> c in KeyChars(t)
  {
    if c in KeyChars(t) {
      var i :| 0 <= i < |t| && KeyChars(t)[i] == c;
      assert Keys(t)[i] == t[i].key == [c];
    }
    if [c] in Keys(t) {
      var i :| 0 <= i < |t| && Keys(t)[i] == [c];
      assert KeyChars(t)[i] == c;
    }
  }

  /** Tables with the same keys have the same key characters. */
  lemma KeyCharsOfKeys(t: Table<string>, r: Table<string>, extra: seq<string>)
    requires SingleCharKeys(t) && Keys(r) == Keys(t) + extra
    requires forall i :: 0 <= i < |extra| ==> |extra[i]| == 1
    ensures SingleCharKeys(r)
    ensures KeyChars(r) == KeyChars(t) + seq(|extra|, i requires 0 <= i < |extra| => extra[i][0])
  {
    forall i | 0 <= i < |r|
      ensures |r[i].key| == 1
    {
      assert r[i].key == Keys(r)[i];
      if i < |t| {
        assert t[i].key == Keys(t)[i];
      }
    }
    forall i | 0 <= i < |r|
      ensures KeyChars(r)[i] == (KeyChars(t) + seq(|extra|, i requires 0 <= i < |extra| => extra[i][0]))[i]
    {
      assert r[i].key == Keys(r)[i];
      if i < |t| {
        assert t[i].key == Keys(t)[i];
      }
    }
  }

  /** Counting one more character in a single-character-keyed table adds its
      character at the end of the key characters unless it is already there. */
  lemma KeyCharsBump(t: Table<string>, c: char)
    requires ValidTable(t) && SingleCharKeys(t)
    ensures SingleCharKeys(Bump(t, [c]))
    ensures KeyChars(Bump(t, [c])) == if c in KeyChars(t) then KeyChars(t) else KeyChars(t) + [c]
  {
    KeyCharsMember(t, c);
    var r := Bump(t, [c]);
    if c in KeyChars(t) {
      assert Keys(r) == Keys(t) + [];
      KeyCharsOfKeys(t, r, []);
    } else {
      KeyCharsOfKeys(t, r, [[c]]);
    }
  }

  /** The key characters of a table of single-character keys: exactly the
      non-whitespace characters of `text`, in order of first occurrence. */
  predicate KeysShapedBy(text: string, t: Table<string>)
  {
    && SingleCharKeys(t)
    && (forall c :: c in KeyChars(t) <==> c in text && !IsSpace(c))
    && FirstOccurrenceOrder(text, KeyChars(t))
  }

  /** Reading one more character keeps the shape of the keys. */
  lemma CharacterKeysStep(text: string)
    requires |text| > 0
    requires KeysShapedBy(text[..|text| - 1], CharactersCount(text[..|text| - 1]))
    ensures KeysShapedBy(text, CharactersCount(text))
  {
    var p := text[..|text| - 1];
    var c := text[|text| - 1];
    var tp := CharactersCount(p);
    var t := CharactersCount(text);
    forall d
      ensures d in text <==> d in p || d == c
    {
      LastMembers(text, d);
    }
    OrderExtend(text, KeyChars(tp));
    if IsSpace(c) {
      assert t == tp;
    } else {
      assert t == Bump(tp, [c]);
      KeyCharsBump(tp, c);
      if c in p {
        assert KeyChars(t) == KeyChars(tp);
      } else {
        assert KeyChars(t) == KeyChars(tp) + [c];
        OrderAppend(text, KeyChars(tp));
      }
    }
  }

  /** The keys of the character table are single characters; they are exactly
      the non-whitespace characters of the text, listed in the order of their
      first occurrence in the text. */
  lemma {:induction false} CharacterKeysShape(text: string)
    ensures KeysShapedBy(text, CharactersCount(text))
  {
    if |text| > 0 {
      CharacterKeysShape(text[..|text| - 1]);
      CharacterKeysStep(text);
    }
  }

  /** One character's entry in the character table. */
  lemma CharacterEntry(text: string, c: char)
    ensures [c] in Keys(CharactersCount(text)) <==> c in text && !IsSpace(c)
    ensures CountOf(CharactersCount(text), [c]) == if IsSpace(c) then 0 else Occurrences(text, c)
  {
    var stripped := StripSpaces(text);
    CharactersCountIsTabulate(text);
    TabulateKeys(Singletons(stripped));
    TabulateCounts(Singletons(stripped), [c]);
    SingletonsOccurrences(stripped, c);
    StripSpacesOccurrences(text, c);
    OccurrencesPositive(text, c);
    OccurrencesPositive(Singletons(stripped), [c]);
  }

  /** The character table of `text`, item by item and key by key: every count
      is at least 1; a character is a key exactly when it occurs in the text
      and is not whitespace; its count is its number of occurrences. */
  lemma CharacterTable(text: string)
    ensures forall i :: 0 <= i < |CharactersCount(text)| ==> CharactersCount(text)[i].count >= 1
    ensures forall c :: [c] in Keys(CharactersCount(text)) <==> c in text && !IsSpace(c)
    ensures forall c :: CountOf(CharactersCount(text), [c]) == if IsSpace(c) then 0 else Occurrences(text, c)
    ensures forall k :: |k| != 1 ==> k !in Keys(CharactersCount(text))
  {
    var t := CharactersCount(text);
    CharacterKeysShape(text);
    forall c
      ensures [c] in Keys(t) <==> c in text && !IsSpace(c)
      ensures CountOf(t, [c]) == if IsSpace(c) then 0 else Occurrences(text, c)
    {
      CharacterEntry(text, c);
    }
    forall k | k in Keys(t)
      ensures |k| == 1
    {
      var i :| 0 <= i < |t| && Keys(t)[i] == k;
    }
  }

  /** The character counts add up to the number of non-whitespace characters,
      which is the length of the stripped text; there is one item per distinct
      non-whitespace character. */
  lemma CharacterTotals(text: string)
    ensures Total(CharactersCount(text)) == |StripSpaces(text)|
    ensures |CharactersCount(text)| == |Elements(StripSpaces(text))|
  {
    var stripped := StripSpaces(text);
    CharactersCountIsTabulate(text);
    TabulateTotal(Singletons(stripped));
    TabulateSize(Singletons(stripped));
    SingletonsElements(stripped);
  }

  /** Wrapping each character into a string keeps the number of distinct
      values. */
  lemma SingletonsElements(s: string)
    ensures |Elements(Singletons(s))| == |Elements(s)|
  {
    assert Elements(Singletons(s)) == set c | c in Elements(s) :: [c] by {
      forall k | k in Singletons(s)
        ensures k in set c | c in Elements(s) :: [c]
      {
        var i :| 0 <= i < |s| && Singletons(s)[i] == k;
        assert s[i] in Elements(s);
      }
      forall c | c in Elements(s)
        ensures [c] in Singletons(s)
      {
        var i :| 0 <= i < |s| && s[i] == c;
        assert Singletons(s)[i] == [c];
      }
    }
    SingletonImage(Elements(s));
  }

  /** Wrapping characters into one-character strings loses none of them. */
  lemma {:induction false} SingletonImage(cs: set<char>)
    ensures |set c | c in cs :: [c]| == |cs|
    decreases |cs|
  {
    if cs != {} {
      var c :| c in cs;
      var rest := cs - {c};
      SingletonImage(rest);
      assert (set d | d in cs :: [d]) == (set d | d in rest :: [d]) + {[c]};
    }
  }

  /** The word table: every key is a non-empty, whitespace-free token of
      `split()`, every token is a key, each count is the token's number of
      occurrences (so at least 1), the counts add up to the number of tokens,
      there is one item per distinct token, and keys keep first-occurrence
      order. */
  lemma WordTable(text: string)
    ensures forall i :: 0 <= i < |WordsCount(text)| ==>
      && |WordsCount(text)[i].key| > 0
      && SpaceFree(WordsCount(text)[i].key)
      && WordsCount(text)[i].count == Occurrences(Split(text), WordsCount(text)[i].key) >= 1
    ensures forall w :: w in Keys(WordsCount(text)) <==> w in Split(text)
    ensures Total(WordsCount(text)) == |Split(text)|
    ensures |WordsCount(text)| == |Elements(Split(text))|
    ensures FirstOccurrenceOrder(Split(text), Keys(WordsCount(text)))
  {
    var words := Split(text);
    var t := WordsCount(text);
    TabulateItems(words);
    TabulateKeys(words);
    TabulateTotal(words);
    TabulateSize(words);
    TabulateOrder(words);
    forall i | 0 <= i < |t|
      ensures Occurrences(words, t[i].key) >= 1
    {
      OccurrencesPositive(words, t[i].key);
    }
  }
}

=== FILE: ranking.dfy ===
/** The ranker: `sorted(dictionary.items(), key=lambda item: -item[1])` and
    the listing of the first ten items that follows it. */
module Ranking {
  import opened Tally

  /** Counts never increase from left to right. */
  predicate NonIncreasing<K>(r: seq<Entry<K>>)
  {
    forall i, j :: 0 <= i < j < |r| ==> r[i].count >= r[j].count
  }

  /** The items with count `v`, in the order they appear in `r`. A sort is
      stable exactly when it leaves each of these subsequences unchanged. */
  function WithCount<K>(r: seq<Entry<K>>, v: nat): seq<Entry<K>>
  {
    if |r| == 0 then []
    else (if r[0].count == v then [r[0]] else []) + WithCount(r[1..], v)
  }

  lemma {:induction false} WithCountMembers<K>(r: seq<Entry<K>>, v: nat, e: Entry<K>)
    ensures e in WithCount(r, v) <==> e in r && e.count == v
  {
    if |r| > 0 {
      WithCountMembers(r[1..], v, e);
      assert r == [r[0]] + r[1..];
    }
  }

  /** Puts `e` in front of the first item whose count is not larger, so that
      it follows every item with a larger count and precedes every item of
      equal count. */
  function Insert<K>(e: Entry<K>, r: seq<Entry<K>>): seq<Entry<K>>
  {
    if |r| == 0 || r[0].count <= e.count then [e] + r
    else [r[0]] + Insert(e, r[1..])
  }

  lemma {:induction false} InsertPermutes<K>(e: Entry<K>, r: seq<Entry<K>>)
    ensures |Insert(e, r)| == |r| + 1
    ensures multiset(Insert(e, r)) == multiset(r) + multiset{e}
  {
    if |r| > 0 && r[0].count > e.count {
      InsertPermutes(e, r[1..]);
      assert r == [r[0]] + r[1..];
    }
  }

  lemma {:induction false} InsertMembers<K>(e: Entry<K>, r: seq<Entry<K>>, x: Entry<K>)
    ensures x in Insert(e, r) <==> x == e || x in r
  {
    if |r| > 0 && r[0].count > e.count {
      InsertMembers(e, r[1..], x);
      assert r == [r[0]] + r[1..];
    }
  }

  lemma {:induction false} InsertSorted<K>(e: Entry<K>, r: seq<Entry<K>>)
    requires NonIncreasing(r)
    ensures NonIncreasing(Insert(e, r))
  {
    if |r| > 0 && r[0].count > e.count {
      var tail := r[1..];
      InsertSorted(e, tail);
      var s := Insert(e, tail);
      forall x | x in s
        ensures x.count <= r[0].count
      {
        InsertMembers(e, tail, x);
        if x != e {
          var k :| 0 <= k < |tail| && tail[k] == x;
          assert r[k + 1] == x;
        }
      }
      assert Insert(e, r) == [r[0]] + s;
    }
  }

  /** The items of count `v` of a sequence with one more item in front. */
  lemma WithCountCons<K>(x: Entry<K>, s: seq<Entry<K>>, v: nat)
    ensures WithCount([x] + s, v) == (if x.count == v then [x] else []) + WithCount(s, v)
  {
    assert ([x] + s)[1..] == s;
  }

  lemma {:induction false} InsertWithCount<K>(e: Entry<K>, r: seq<Entry<K>>, v: nat)
    requires NonIncreasing(r)
    ensures WithCount(Insert(e, r), v) == (if e.count == v then [e] else []) + WithCount(r, v)
  {
    if |r| == 0 || r[0].count <= e.count {
      WithCountCons(e, r, v);
    } else {
      var tail := r[1..];
      InsertWithCount(e, tail, v);
      WithCountCons(r[0], Insert(e, tail), v);
      WithCountCons(r[0], tail, v);
      assert [r[0]] + tail == r;
    }
  }

  /** Inserting the first item into a permutation of the others gives a
      permutation of the whole. */
  lemma InsertFirstPermutes<K>(t: seq<Entry<K>>, rest: seq<Entry<K>>)
    requires |t| > 0 && multiset(rest) == multiset(t[1..])
    ensures |Insert(t[0], rest)| == |t|
    ensures multiset(Insert(t[0], rest)) == multiset(t)
  {
    InsertPermutes(t[0], rest);
    assert t == [t[0]] + t[1..];
    assert |rest| == |t[1..]| by {
      assert |multiset(rest)| == |rest| && |multiset(t[1..])| == |t[1..]|;
    }
  }

  /** The stable sort by descending count: an insertion sort that inserts
      each item in front of the items of equal count that follow it in the
      input. */
  function SortByCount<K>(t: seq<Entry<K>>): (r: seq<Entry<K>>)
    ensures |r| == |t|
    ensures multiset(r) == multiset(t)
    ensures NonIncreasing(r)
  {
    if |t| == 0 then []
    else
      var rest := SortByCount(t[1..]);
      InsertFirstPermutes(t, rest);
      InsertSorted(t[0], rest);
      Insert(t[0], rest)
  }

  /** The sort is stable: the items of each count appear in the ranking in
      the same order as in the dictionary. */
  lemma {:induction false} SortByCountSpec<K>(t: seq<Entry<K>>)
    ensures forall v :: WithCount(SortByCount(t), v) == WithCount(t, v)
  {
    if |t| > 0 {
      var rest := SortByCount(t[1..]);
      SortByCountSpec(t[1..]);
      forall v
        ensures WithCount(SortByCount(t), v) == WithCount(t, v)
      {
        InsertWithCount(t[0], rest, v);
        WithCountCons(t[0], t[1..], v);
        assert [t[0]] + t[1..] == t;
      }
    }
  }

  /** Two sequences ordered by descending count that agree on the
      subsequence of every count value are equal: the stable descending sort
      of a sequence is determined by the sequence alone, whatever algorithm
      computes it. */
  lemma {:induction false} StableSortUnique<K>(a: seq<Entry<K>>, b: seq<Entry<K>>)
    requires NonIncreasing(a) && NonIncreasing(b)
    requires forall v :: WithCount(a, v) == WithCount(b, v)
    ensures a == b
    decreases |a|
  {
    if |a| == 0 || |b| == 0 {
      if |a| != |b| {
        var e := if |a| == 0 then b[0] else a[0];
        WithCountMembers(a, e.count, e);
        WithCountMembers(b, e.count, e);
        assert false;
      }
    } else {
      var m := a[0].count;
      var n := b[0].count;
      assert WithCount(a, m)[0] == a[0];
      assert WithCount(b, n)[0] == b[0];
      assert m <= n by {
        WithCountMembers(b, m, a[0]);
        WithCountMembers(a, m, a[0]);
        var j :| 0 <= j < |b| && b[j] == a[0];
      }
      assert n <= m by {
        WithCountMembers(a, n, b[0]);
        WithCountMembers(b, n, b[0]);
        var j :| 0 <= j < |a| && a[j] == b[0];
      }
      assert a[0] == b[0];
      forall v
        ensures WithCount(a[1..], v) == WithCount(b[1..], v)
      {
        var head: seq<Entry<K>> := if m == v then [a[0]] else [];
        assert WithCount(a, v) == head + WithCount(a[1..], v);
        assert WithCount(b, v) == head + WithCount(b[1..], v);
        assert WithCount(a[1..], v) == (head + WithCount(a[1..], v))[|head|..];
        assert WithCount(b[1..], v) == (head + WithCount(b[1..], v))[|head|..];
      }
      StableSortUnique(a[1..], b[1..]);
      assert a == [a[0]] + a[1..];
      assert b == [b[0]] + b[1..];
    }
  }

  /** Any ordering of the items by descending count that keeps items of equal
      count in dictionary order is the one `SortByCount` produces. */
  lemma SortByCountIsStableSort<K>(t: seq<Entry<K>>, r: seq<Entry<K>>)
    requires NonIncreasing(r)
    requires forall v :: WithCount(r, v) == WithCount(t, v)
    ensures r == SortByCount(t)
  {
    SortByCountSpec(t);
    StableSortUnique(r, SortByCount(t));
  }

  /** The smaller of two counts. */
  function Min(a: nat, b: nat): nat
  {
    if a <= b then a else b
  }

  /** A prefix of a permutation of `t` ordered by descending count: its items
      come from `t`, and every item of `t` left out has no larger count than
      any item kept. */
  lemma PrefixFacts<K>(t: seq<Entry<K>>, sorted: seq<Entry<K>>, k: nat)
    requires NonIncreasing(sorted) && multiset(sorted) == multiset(t) && k <= |sorted|
    ensures multiset(sorted[..k]) <= multiset(t)
    ensures forall e, i :: e in t && e !in sorted[..k] && 0 <= i < k ==> e.count <= sorted[..k][i].count
  {
    assert sorted == sorted[..k] + sorted[k..];
    forall e, i | e in t && e !in sorted[..k] && 0 <= i < k
      ensures e.count <= sorted[..k][i].count
    {
      assert e in multiset(t);
      assert e in multiset(sorted);
      var j :| 0 <= j < |sorted| && sorted[j] == e;
    }
  }

  /** The `n` most frequent items: the first `min(n, |t|)` items of the
      ranking. Never fails, whatever the size of the table. */
  function Top<K(==)>(t: Table<K>, n: nat): (r: Table<K>)
    ensures |r| == Min(n, |t|)
    ensures NonIncreasing(r)
    ensures multiset(r) <= multiset(t)
    ensures forall e, i :: e in t && e !in r && 0 <= i < |r| ==> e.count <= r[i].count
  {
    var sorted := SortByCount(t);
    SortByCountSpec(t);
    PrefixFacts(t, sorted, Min(n, |t|));
    sorted[..Min(n, |t|)]
  }

  /** Every listed item is an item of the table. */
  lemma TopItem<K>(t: Table<K>, n: nat, e: Entry<K>)
    requires e in Top(t, n)
    ensures e in t && e.key in Keys(t)
    ensures ValidTable(t) ==> e.count >= 1
  {
    assert e in multiset(Top(t, n));
    assert e in multiset(t);
    var i :| 0 <= i < |t| && t[i] == e;
    assert Keys(t)[i] == e.key;
  }

  /** What the listing loop prints, and whether it stops with an error. */
  datatype Listing<K> = Listing(rows: seq<Entry<K>>, raised: bool)

  /** `print_top_ten` as written: it reads positions 0 to 9 of the ranking,
      printing each, and raises `IndexError` at the first position past the
      end when the table has fewer than ten items. */
  function TopTenAsWritten<K(==)>(t: Table<K>): (l: Listing<K>)
    ensures l.raised <==> |t| < 10
    ensures |l.rows| == Min(10, |t|)
    ensures l.rows == Top(t, 10)
  {
    var events := SortByCount(t);
    SortByCountSpec(t);
    if |events| >= 10 then Listing(events[..10], false)
    else Listing(events, true)
  }

  /** A table of three items with counts 3, 2 and 1, the character table of
      "aaabbc", reaches the error: the listing prints three rows and then
      fails on position 3. */
  lemma TopTenRaisesOnSmallTable()
    ensures TopTenAsWritten([Entry("a", 3), Entry("b", 2), Entry("c", 1)]).raised
    ensures TopTenAsWritten([Entry("a", 3), Entry("b", 2), Entry("c", 1)]).rows
      == [Entry("a", 3), Entry("b", 2), Entry("c", 1)]
  {
    var t := [Entry("a", 3), Entry("b", 2), Entry("c", 1)];
    assert NonIncreasing(t);
    SortByCountIsStableSort(t, t);
  }
}

=== FILE: seqs.dfy ===
/** Generic facts about sequences that the tokenizer, the tabulator and the
    ranker share: counting occurrences and locating the first occurrence. */
module Seqs {

  /** How many positions of `s` hold `x`. Defined from the right, the way a
      left-to-right loop sees its input grow one element at a time. */
  function Occurrences<T(==)>(s: seq<T>, x: T): nat
  {
    if |s| == 0 then 0
    else Occurrences(s[..|s| - 1], x) + (if s[|s| - 1] == x then 1 else 0)
  }

  /** An element occurs at least once exactly when it is in the sequence. */
  lemma {:induction false} OccurrencesPositive<T>(s: seq<T>, x: T)
    ensures Occurrences(s, x) > 0 <==> x in s
  {
    if |s| > 0 {
      var p := s[..|s| - 1];
      OccurrencesPositive(p, x);
      assert s == p + [s[|s| - 1]];
    }
  }

  /** Counting distributes over concatenation. */
  lemma {:induction false} OccurrencesAppend<T>(a: seq<T>, b: seq<T>, x: T)
    ensures Occurrences(a + b, x) == Occurrences(a, x) + Occurrences(b, x)
  {
    if |b| > 0 {
      var b' := b[..|b| - 1];
      assert (a + b)[..|a + b| - 1] == a + b';
      OccurrencesAppend(a, b', x);
    } else {
      assert a + b == a;
    }
  }

  /** The index of the first occurrence of `x` in `s`, or `|s|` when `x` does
      not occur: the position a dictionary lookup by key finds. */
  function IndexOf<T(==)>(s: seq<T>, x: T): (i: nat)
    ensures i <= |s|
    ensures i < |s| ==> s[i] == x
    ensures x !in s[..i]
    ensures i == |s| <==> x !in s
  {
    if |s| == 0 then 0
    else if s[0] == x then 0
    else
      var j := IndexOf(s[1..], x);
      assert s[..j + 1] == [s[0]] + s[1..][..j];
      j + 1
  }

  /** The first-occurrence index of an element that already occurs in `s` does
      not move when more elements are appended. */
  lemma IndexOfAppend<T>(s: seq<T>, t: seq<T>, x: T)
    requires x in s
    ensures IndexOf(s + t, x) == IndexOf(s, x)
  {
    var i := IndexOf(s, x);
    var j := IndexOf(s + t, x);
    assert (s + t)[..i + 1] == s[..i + 1];
    assert x in (s + t)[..i + 1];
  }

  /** The elements of a non-empty sequence are those before its last
      position and the last one. */
  lemma LastMembers<T>(s: seq<T>, x: T)
    requires |s| > 0
    ensures x in s <==> x in s[..|s| - 1] || x == s[|s| - 1]
  {
    assert s == s[..|s| - 1] + [s[|s| - 1]];
  }

  /** Replacing the last element of `s + [x]` by `y` gives `s + [y]`. */
  lemma UpdateLast<T>(s: seq<T>, x: T, y: T)
    ensures (s + [x])[|s| := y] == s + [y]
  {
    assert forall i :: 0 <= i < |s| ==> (s + [x])[|s| := y][i] == s[i];
  }

  /** Appending to a one-element display gives a two-element display; stated
      apart so that proofs about short tables need not unfold it in a large
      context. */
  lemma AppendToOne<T>(x: T, y: T)
    ensures [x] + [y] == [x, y]
  {
  }

  /** Appending to a two-element display gives a three-element display, for
      the same reason as `AppendToOne`. */
  lemma AppendToPair<T>(x: T, y: T, z: T)
    ensures [x, y] + [z] == [x, y, z]
  {
  }

  /** All elements pairwise distinct. */
  predicate Distinct<T(==)>(s: seq<T>)
  {
    forall i, j :: 0 <= i < j < |s| ==> s[i] != s[j]
  }

  /** The set of elements of `s`. */
  function Elements<T>(s: seq<T>): set<T>
  {
    set x | x in s
  }

  /** A sequence without repetitions has as many elements as distinct values. */
  lemma {:induction false} DistinctCardinality<T>(s: seq<T>)
    requires Distinct(s)
    ensures |Elements(s)| == |s|
  {
    if |s| > 0 {
      var p := s[..|s| - 1];
      var last := s[|s| - 1];
      assert Distinct(p);
      DistinctCardinality(p);
      assert s == p + [last];
      assert last !in p;
      assert Elements(s) == Elements(p) + {last};
    }
  }
}

=== FILE: statistics.dfy ===
/** The integer figures behind each output block of one text: the raw byte
    count, `total_elements`, the number of distinct elements and the ranked
    top ten, which the program prints, and the bits of the key literals,
    which it never prints but adds into the encoding table size. */
module Statistics {
  import opened Seqs
  import opened Text
  import opened Tally
  import opened Frequencies
  import opened Ranking
  import opened Utf8
  import opened Entropy

  /** The integer figures of one block of output; `literalBits` is the
      key-size part of the encoding table size, not a printed figure. */
  datatype Figures = Figures(
    rawBytes: nat,
    total: nat,
    distinct: nat,
    literalBits: nat,
    top: Table<string>)

  /** The figures for one frequency table; the raw byte count is that of the
      whole text and is shared by both alphabets. The listing holds
      `min(10, distinct)` items, a table with counts of at least 1 has no
      more distinct symbols than symbols, and the literal bits are eight per
      octet of the keys written one after another. */
  function Report(text: string, t: Table<string>): (f: Figures)
    ensures |f.top| == Min(10, f.distinct)
    ensures ValidTable(t) ==> f.distinct <= f.total
    ensures f.rawBytes == SumOfWidths(StripSpaces(text))
    ensures f.literalBits == 8 * |Encode(Concat(Keys(t)))|
  {
    assert ValidTable(t) ==> |t| <= Total(t) by {
      if ValidTable(t) {
        TotalAtLeastSize(t);
      }
    }
    Figures(RawByteCount(text), Total(t), |t|, LiteralBits(t), Top(t, 10))
  }

  function CharacterFigures(text: string): Figures
  {
    Report(text, CharactersCount(text))
  }

  function WordFigures(text: string): Figures
  {
    Report(text, WordsCount(text))
  }

  /** Empty or whitespace-only text gives two empty tables. */
  lemma EmptyTables(text: string)
    requires forall i :: 0 <= i < |text| ==> IsSpace(text[i])
    ensures CharactersCount(text) == [] && WordsCount(text) == []
    ensures RawByteCount(text) == 0
  {
    StripSpacesEmpty(text);
    CharacterTotals(text);
    SplitConcat(text);
    WordTable(text);
    RawByteCountBounds(text);
    assert Elements(StripSpaces(text)) == {};
  }

  /** Empty or whitespace-only text: both tables are empty, every count is
      0, nothing is ranked, and the entropy accumulator keeps its initial 0
      because its loop never runs. */
  lemma EmptyInput(text: string, log2: real -> real)
    requires forall i :: 0 <= i < |text| ==> IsSpace(text[i])
    ensures CharacterFigures(text) == Figures(0, 0, 0, 0, [])
    ensures WordFigures(text) == Figures(0, 0, 0, 0, [])
    ensures CalculateEntropy(CharactersCount(text), log2) == EntropyResult(0.0, 0)
    ensures CalculateEntropy(WordsCount(text), log2) == EntropyResult(0.0, 0)
    ensures SizeOfMessageByEntropy(CharactersCount(text), log2) == MessageSize(0.0, 0)
    ensures SizeOfMessageByEntropy(WordsCount(text), log2) == MessageSize(0.0, 0)
    ensures EncodingTableSize(CharactersCount(text), log2) == 0.0
    ensures EncodingTableSize(WordsCount(text), log2) == 0.0
  {
    EmptyTables(text);
    var empty: Table<string> := [];
    assert Top(empty, 10) == [];
    assert Total(empty) == 0 && LiteralBits(empty) == 0;
  }

  /** The character figures: `total_elements` is the number of
      non-whitespace characters, which is also the combined length of the
      words, and the raw byte count lies between it and four times it. */
  lemma CharacterFiguresAgree(text: string)
    ensures CharacterFigures(text).total == |StripSpaces(text)| == |Concat(Split(text))|
    ensures CharacterFigures(text).total <= CharacterFigures(text).rawBytes <= 4 * CharacterFigures(text).total
    ensures CharacterFigures(text).distinct == |Elements(StripSpaces(text))|
    ensures WordFigures(text).total == |Split(text)|
    ensures WordFigures(text).distinct == |Elements(Split(text))|
  {
    CharacterTotals(text);
    SplitConcat(text);
    RawByteCountBounds(text);
    WordTable(text);
  }

  /** A key made of one character takes one to four octets. */
  lemma {:induction false} SingleCharLiteralBits(t: Table<string>)
    requires SingleCharKeys(t)
    ensures 8 * |t| <= LiteralBits(t) <= 32 * |t|
  {
    if |t| > 0 {
      assert SingleCharKeys(t[1..]) by {
        assert forall i :: 0 <= i < |t| - 1 ==> t[1..][i] == t[i + 1];
      }
      SingleCharLiteralBits(t[1..]);
      var k := t[0].key;
      assert k == [k[0]];
      assert Encode(k) == EncodeChar(k[0]) + Encode([]);
    }
  }

  /** The key literals of the character table take 8 to 32 bits per distinct
      character. */
  lemma CharacterLiteralBits(text: string)
    ensures 8 * CharacterFigures(text).distinct <= CharacterFigures(text).literalBits
    ensures CharacterFigures(text).literalBits <= 32 * CharacterFigures(text).distinct
  {
    CharacterKeysShape(text);
    SingleCharLiteralBits(CharactersCount(text));
  }

  /** The listing of either alphabet holds `min(10, distinct)` items taken from
      the table, by non-increasing count, none of them outranked by an item
      left out. */
  lemma TopFigures(text: string)
    ensures |CharacterFigures(text).top| == Min(10, CharacterFigures(text).distinct)
    ensures |WordFigures(text).top| == Min(10, WordFigures(text).distinct)
    ensures forall e :: e in WordFigures(text).top ==> e.key in Split(text) && e.count >= 1
  {
    var t := WordsCount(text);
    WordTable(text);
    forall e | e in WordFigures(text).top
      ensures e.key in Split(text) && e.count >= 1
    {
      TopItem(t, 10, e);
    }
  }

  /** A text with fewer than ten distinct non-whitespace characters makes the
      listing as written raise, after printing one row per character. */
  lemma CharacterListingRaises(text: string)
    requires |Elements(StripSpaces(text))| < 10
    ensures TopTenAsWritten(CharactersCount(text)).raised
    ensures TopTenAsWritten(CharactersCount(text)).rows == Top(CharactersCount(text), 10)
    ensures |Top(CharactersCount(text), 10)| == |Elements(StripSpaces(text))|
  {
    CharacterTotals(text);
  }

  /** Two runs of distinct non-whitespace characters give one item each. */
  lemma TwoRuns(a: char, b: char, i: nat, j: nat)
    requires !IsSpace(a) && !IsSpace(b) && a != b && i > 0 && j > 0
    ensures CharactersCount(Run(a, i) + Run(b, j)) == [Entry([a], i), Entry([b], j)]
  {
    SingletonsDiffer(a, b);
    CountOneRun(a, i);
    CountSecondRun(Run(a, i), Entry([a], i), b, j);
  }

  /** The character table of runs of three distinct non-whitespace
      characters, `i` copies of `a`, then `j` of `b`, then `k` of `c`: one
      item per run, in the order of the runs, counting its length. */
  lemma ThreeRuns(a: char, b: char, c: char, i: nat, j: nat, k: nat)
    requires !IsSpace(a) && !IsSpace(b) && !IsSpace(c)
    requires a != b && b != c && a != c
    requires i > 0 && j > 0 && k > 0
    ensures CharactersCount(Run(a, i) + Run(b, j) + Run(c, k))
      == [Entry([a], i), Entry([b], j), Entry([c], k)]
  {
    SingletonsDiffer(a, c);
    SingletonsDiffer(b, c);
    TwoRuns(a, b, i, j);
    CountThirdRun(Run(a, i) + Run(b, j), Entry([a], i), Entry([b], j), c, k);
  }

  /** "aaabbc" is three runs of characters that are not whitespace. */
  lemma AaabbcRuns()
    ensures Run('a', 3) + Run('b', 2) + Run('c', 1) == "aaabbc"
    ensures !IsSpace('a') && !IsSpace('b') && !IsSpace('c')
  {
  }

  /** The character table of "aaabbc": `a` three times, `b` twice, `c` once. */
  lemma AaabbcTable()
    ensures CharactersCount("aaabbc") == [Entry("a", 3), Entry("b", 2), Entry("c", 1)]
  {
    AaabbcRuns();
    ThreeRuns('a', 'b', 'c', 3, 2, 1);
  }

  /** The character listing of "aaabbc" as written prints `a 3`, `b 2` and
      `c 1` and then raises. */
  lemma AaabbcListing()
    ensures TopTenAsWritten(CharactersCount("aaabbc")).raised
    ensures TopTenAsWritten(CharactersCount("aaabbc")).rows
      == [Entry("a", 3), Entry("b", 2), Entry("c", 1)]
  {
    AaabbcTable();
    TopTenRaisesOnSmallTable();
  }
}

=== FILE: tally.dfy ===
/** The frequency tabulator: a dictionary from symbol to count, kept in the
    insertion order a Python `dict` preserves, and the counting loop that
    fills it. */
module Tally {
  import opened Seqs

  /** One dictionary item: a key and the number of times it has been seen. */
  datatype Entry<K> = Entry(key: K, count: nat)

  /** A dictionary's items in insertion order. */
  type Table<K> = seq<Entry<K>>

  /** The keys in insertion order (`dictionary.keys()`). */
  function Keys<K>(t: Table<K>): seq<K>
  {
    seq(|t|, i requires 0 <= i < |t| => t[i].key)
  }

  /** The shape every frequency table has: no key twice, every count at
      least 1. */
  predicate ValidTable<K(==)>(t: Table<K>)
  {
    && Distinct(Keys(t))
    && forall i :: 0 <= i < |t| ==> t[i].count >= 1
  }

  /** The count stored under `k`, or 0 when `k` is not a key. */
  function CountOf<K(==)>(t: Table<K>, k: K): nat
  {
    var i := IndexOf(Keys(t), k);
    if i < |t| then t[i].count else 0
  }

  /** In a table without repeated keys, the count of a key is the count
      stored at its position. */
  lemma CountOfAt<K>(t: Table<K>, i: nat)
    requires Distinct(Keys(t)) && i < |t|
    ensures CountOf(t, t[i].key) == t[i].count
  {
    var j := IndexOf(Keys(t), t[i].key);
    assert Keys(t)[i] == t[i].key;
  }

  /** The sum of all counts (`sum(dictionary.values())`), added up from the
      first item to the last. */
  function Total<K>(t: Table<K>): nat
  {
    if |t| == 0 then 0 else Total(t[..|t| - 1]) + t[|t| - 1].count
  }

  /** Every count is at most the sum of all counts. */
  lemma {:induction false} CountBelowTotal<K>(t: Table<K>, i: nat)
    requires i < |t|
    ensures t[i].count <= Total(t)
  {
    if i < |t| - 1 {
      CountBelowTotal(t[..|t| - 1], i);
    }
  }

  /** With every count at least 1 the sum is at least the number of items. */
  lemma {:induction false} TotalAtLeastSize<K>(t: Table<K>)
    requires forall i :: 0 <= i < |t| ==> t[i].count >= 1
    ensures Total(t) >= |t|
  {
    if |t| > 0 {
      TotalAtLeastSize(t[..|t| - 1]);
    }
  }

  /** The same sum read from the front: the first count plus the sum of the
      rest. */
  lemma {:induction false} TotalFront<K>(t: Table<K>)
    requires |t| > 0
    ensures Total(t) == t[0].count + Total(t[1..])
    decreases |t|
  {
    var n := |t| - 1;
    if n > 0 {
      TotalFront(t[..n]);
      assert t[..n][1..] == t[1..][..n - 1];
    }
  }

  /** Overwriting one item changes the sum by the difference of the counts. */
  lemma {:induction false} TotalUpdate<K>(t: Table<K>, i: nat, e: Entry<K>)
    requires i < |t|
    ensures Total(t[i := e]) == Total(t) - t[i].count + e.count
  {
    var n := |t| - 1;
    if i < n {
      assert t[i := e][..n] == t[..n][i := e];
      TotalUpdate(t[..n], i, e);
    } else {
      assert t[i := e][..n] == t[..n];
    }
  }

  /** `d[k] += 1` for a key `k` stored at position `i`. */
  lemma BumpPresent<K>(t: Table<K>, k: K, i: nat)
    requires ValidTable(t) && i == IndexOf(Keys(t), k) && i < |t|
    ensures ValidTable(t[i := Entry(k, t[i].count + 1)])
    ensures CountOf(t[i := Entry(k, t[i].count + 1)], k) == CountOf(t, k) + 1
    ensures Keys(t[i := Entry(k, t[i].count + 1)]) == Keys(t)
    ensures Total(t[i := Entry(k, t[i].count + 1)]) == Total(t) + 1
  {
    var r := t[i := Entry(k, t[i].count + 1)];
    assert Keys(r) == Keys(t);
    TotalUpdate(t, i, Entry(k, t[i].count + 1));
  }

  /** `d[k] = 1` for a symbol `k` that is not yet a key. */
  lemma BumpAbsent<K>(t: Table<K>, k: K)
    requires ValidTable(t) && k !in Keys(t)
    ensures ValidTable(t + [Entry(k, 1)])
    ensures CountOf(t + [Entry(k, 1)], k) == 1
    ensures Keys(t + [Entry(k, 1)]) == Keys(t) + [k]
    ensures Total(t + [Entry(k, 1)]) == Total(t) + 1
  {
    var r := t + [Entry(k, 1)];
    assert Keys(r) == Keys(t) + [k];
    assert r[..|t|] == t;
    assert IndexOf(Keys(r), k) == |t| by {
      assert Keys(r)[|t|] == k;
    }
  }

  /** One step of the counting loop: `d[k] += 1` when `k` is a key, otherwise
      `d[k] = 1`, which appends `k` after all existing keys. */
  function Bump<K(==)>(t: Table<K>, k: K): (r: Table<K>)
    requires ValidTable(t)
    ensures ValidTable(r)
    ensures CountOf(r, k) == CountOf(t, k) + 1
    ensures Keys(r) == if k in Keys(t) then Keys(t) else Keys(t) + [k]
    ensures Total(r) == Total(t) + 1
  {
    var i := IndexOf(Keys(t), k);
    if i < |t| then
      BumpPresent(t, k, i);
      t[i := Entry(k, t[i].count + 1)]
    else
      BumpAbsent(t, k);
      t + [Entry(k, 1)]
  }

  /** One step of the counting loop leaves the counts of all other keys alone. */
  lemma BumpOther<K>(t: Table<K>, k: K, k': K)
    requires ValidTable(t) && k' != k
    ensures CountOf(Bump(t, k), k') == CountOf(t, k')
  {
    var i := IndexOf(Keys(t), k);
    var r := Bump(t, k);
    if i == |t| {
      assert r == t + [Entry(k, 1)];
      if k' in Keys(t) {
        IndexOfAppend(Keys(t), [k], k');
      }
    }
  }

  /** The counting loop over a sequence of symbols, one `Bump` per symbol
      from left to right, starting from the empty dictionary. */
  function Tabulate<K(==)>(s: seq<K>): (t: Table<K>)
    ensures ValidTable(t)
  {
    if |s| == 0 then [] else Bump(Tabulate(s[..|s| - 1]), s[|s| - 1])
  }

  /** Counting a key stored at position `i` adds one to that item in place. */
  lemma BumpAt<K>(t: Table<K>, k: K, i: nat)
    requires ValidTable(t) && i < |t| && t[i].key == k
    ensures Bump(t, k) == t[i := Entry(k, t[i].count + 1)]
  {
    assert Keys(t)[i] == k;
  }

  /** Counting the key of the last item adds one to that item. */
  lemma BumpLast<K>(t: Table<K>, k: K, n: nat)
    requires ValidTable(t + [Entry(k, n)])
    ensures Bump(t + [Entry(k, n)], k) == t + [Entry(k, n + 1)]
  {
    BumpAt(t + [Entry(k, n)], k, |t|);
    UpdateLast(t, Entry(k, n), Entry(k, n + 1));
  }

  /** Counting a symbol that is not yet a key appends it with count 1. */
  lemma BumpNew<K>(t: Table<K>, k: K)
    requires ValidTable(t) && forall j :: 0 <= j < |t| ==> t[j].key != k
    ensures Bump(t, k) == t + [Entry(k, 1)]
  {
    assert k !in Keys(t);
  }

  /** Every symbol's count is its number of occurrences. */
  lemma {:induction false} TabulateCounts<K>(s: seq<K>, k: K)
    ensures CountOf(Tabulate(s), k) == Occurrences(s, k)
  {
    if |s| > 0 {
      var p := s[..|s| - 1];
      TabulateCounts(p, k);
      if s[|s| - 1] != k {
        BumpOther(Tabulate(p), s[|s| - 1], k);
      }
    }
  }

  /** The keys are exactly the symbols that occur. */
  lemma {:induction false} TabulateKeys<K>(s: seq<K>)
    ensures forall k :: k in Keys(Tabulate(s)) <==> k in s
  {
    if |s| > 0 {
      TabulateKeys(s[..|s| - 1]);
      forall k
        ensures k in s <==> k in s[..|s| - 1] || k == s[|s| - 1]
      {
        LastMembers(s, k);
      }
    }
  }

  /** The counts add up to the number of symbols read. */
  lemma {:induction false} TabulateTotal<K>(s: seq<K>)
    ensures Total(Tabulate(s)) == |s|
  {
    if |s| > 0 {
      TabulateTotal(s[..|s| - 1]);
    }
  }

  /** The table has one item per distinct symbol. */
  lemma TabulateSize<K>(s: seq<K>)
    ensures |Tabulate(s)| == |Elements(s)|
  {
    var t := Tabulate(s);
    TabulateKeys(s);
    DistinctCardinality(Keys(t));
    assert Elements(Keys(t)) == Elements(s);
  }

  /** The keys `ks` are listed in the order in which they first occur in `s`. */
  predicate FirstOccurrenceOrder<K(==)>(s: seq<K>, ks: seq<K>)
  {
    forall i, j :: 0 <= i < j < |ks| ==> IndexOf(s, ks[i]) < IndexOf(s, ks[j])
  }

  /** A symbol already seen keeps its first occurrence when one more symbol
      is read. */
  lemma IndexOfExtend<K>(s: seq<K>, k: K)
    requires |s| > 0 && k in s[..|s| - 1]
    ensures IndexOf(s, k) == IndexOf(s[..|s| - 1], k) < |s| - 1
  {
    var p := s[..|s| - 1];
    assert s == p + [s[|s| - 1]];
    IndexOfAppend(p, [s[|s| - 1]], k);
  }

  /** Reading one more symbol keeps the first-occurrence order of keys
      already seen. */
  lemma OrderExtend<K>(s: seq<K>, kp: seq<K>)
    requires |s| > 0
    requires FirstOccurrenceOrder(s[..|s| - 1], kp)
    requires forall k :: k in kp ==> k in s[..|s| - 1]
    ensures FirstOccurrenceOrder(s, kp)
  {
    forall i, j | 0 <= i < j < |kp|
      ensures IndexOf(s, kp[i]) < IndexOf(s, kp[j])
    {
      assert kp[i] in kp && kp[j] in kp;
      IndexOfExtend(s, kp[i]);
      IndexOfExtend(s, kp[j]);
    }
  }

  /** A new symbol's first occurrence comes after those of all keys already
      seen, so appending it as a key keeps the order. */
  lemma OrderAppend<K>(s: seq<K>, kp: seq<K>)
    requires |s| > 0 && s[|s| - 1] !in s[..|s| - 1]
    requires FirstOccurrenceOrder(s[..|s| - 1], kp)
    requires forall k :: k in kp ==> k in s[..|s| - 1]
    ensures FirstOccurrenceOrder(s, kp + [s[|s| - 1]])
  {
    var p := s[..|s| - 1];
    var x := s[|s| - 1];
    var ks := kp + [x];
    OrderExtend(s, kp);
    assert IndexOf(s, x) == |p| by {
      assert s == p + [x];
      assert s[..|p|] == p;
    }
    forall i, j | 0 <= i < j < |ks|
      ensures IndexOf(s, ks[i]) < IndexOf(s, ks[j])
    {
      assert ks[i] == kp[i] && kp[i] in kp;
      IndexOfExtend(s, kp[i]);
      if j < |kp| {
        assert ks[j] == kp[j];
      }
    }
  }

  /** Keys appear in the order of their first occurrence in the input, the
      order the program's dictionary iterates in. */
  lemma {:induction false} TabulateOrder<K>(s: seq<K>)
    ensures FirstOccurrenceOrder(s, Keys(Tabulate(s)))
  {
    if |s| > 0 {
      var p := s[..|s| - 1];
      TabulateOrder(p);
      TabulateKeys(p);
      OrderExtend(s, Keys(Tabulate(p)));
      if s[|s| - 1] !in p {
        OrderAppend(s, Keys(Tabulate(p)));
      }
    }
  }

  /** Every item of a tabulated sequence counts a symbol that occurs, at
      least once and exactly as often as it occurs. */
  lemma TabulateItems<K>(s: seq<K>)
    ensures forall i :: 0 <= i < |Tabulate(s)| ==>
      Tabulate(s)[i].key in s && Tabulate(s)[i].count == Occurrences(s, Tabulate(s)[i].key)
  {
    var t := Tabulate(s);
    TabulateKeys(s);
    forall i | 0 <= i < |t|
      ensures t[i].key in s && t[i].count == Occurrences(s, t[i].key)
    {
      assert Keys(t)[i] in Keys(t);
      CountOfAt(t, i);
      TabulateCounts(s, t[i].key);
    }
  }
}

=== FILE: text.dfy ===
/** The tokenizer: the whitespace test, the whitespace-stripped text that the
    raw-size computation builds, and the argument-less `str.split()` that the
    word count iterates over. */
module Text {
  import opened Seqs

  /** Python's `str.isspace()` on a single character: the characters whose
      bidirectional class is WS, B or S, or whose general category is Zs. The
      same test decides where the argument-less `str.split()` cuts. The
      general lemmas use only that the space character is whitespace; the
      worked example on "aaabbc" also uses that `a`, `b` and `c` are not. */
  predicate IsSpace(c: char)
  {
    var v := c as int;
    || 0x09 <= v <= 0x0D
    || 0x1C <= v <= 0x20
    || v == 0x85 || v == 0xA0 || v == 0x1680
    || 0x2000 <= v <= 0x200A
    || v == 0x2028 || v == 0x2029 || v == 0x202F || v == 0x205F
    || v == 0x3000
  }

  /** No character of `s` is whitespace. */
  predicate SpaceFree(s: string)
  {
    forall i :: 0 <= i < |s| ==> !IsSpace(s[i])
  }

  /** The text with every whitespace character skipped, built left to right
      by appending each kept character (`text_without_spaces`). */
  function StripSpaces(text: string): (r: string)
    ensures SpaceFree(r)
    ensures |r| <= |text|
  {
    if |text| == 0 then []
    else
      var kept := StripSpaces(text[..|text| - 1]);
      var c := text[|text| - 1];
      if IsSpace(c) then kept else kept + [c]
  }

  /** Stripping commutes with concatenation. */
  lemma {:induction false} StripSpacesAppend(a: string, b: string)
    ensures StripSpaces(a + b) == StripSpaces(a) + StripSpaces(b)
  {
    if |b| == 0 {
      assert a + b == a;
    } else {
      var b' := b[..|b| - 1];
      assert (a + b)[..|a + b| - 1] == a + b';
      assert (a + b)[|a + b| - 1] == b[|b| - 1];
      StripSpacesAppend(a, b');
    }
  }

  /** Stripping keeps every non-whitespace character as often as it occurs
      in the text and drops every whitespace character. */
  lemma {:induction false} StripSpacesOccurrences(text: string, c: char)
    ensures Occurrences(StripSpaces(text), c) == if IsSpace(c) then 0 else Occurrences(text, c)
  {
    if |text| > 0 {
      var p := text[..|text| - 1];
      var last := text[|text| - 1];
      StripSpacesOccurrences(p, c);
      if !IsSpace(last) {
        assert (StripSpaces(p) + [last])[..|StripSpaces(p)|] == StripSpaces(p);
      }
    }
  }

  /** Text without whitespace is left as it is. */
  lemma {:induction false} StripSpacesOfSpaceFree(text: string)
    requires SpaceFree(text)
    ensures StripSpaces(text) == text
  {
    if |text| > 0 {
      var p := text[..|text| - 1];
      StripSpacesOfSpaceFree(p);
      assert text == p + [text[|text| - 1]];
    }
  }

  /** Text made of whitespace only strips to nothing, and only such text does. */
  lemma StripSpacesEmpty(text: string)
    ensures StripSpaces(text) == [] <==> forall i :: 0 <= i < |text| ==> IsSpace(text[i])
  {
    if StripSpaces(text) == [] {
      forall i | 0 <= i < |text|
        ensures IsSpace(text[i])
      {
        StripSpacesOccurrences(text, text[i]);
        OccurrencesPositive(text, text[i]);
      }
    } else {
      var c := StripSpaces(text)[0];
      StripSpacesOccurrences(text, c);
      OccurrencesPositive(StripSpaces(text), c);
      OccurrencesPositive(text, c);
    }
  }

  /** The words in order, glued together with nothing between them. */
  function Concat(words: seq<string>): string
  {
    if |words| == 0 then [] else words[0] + Concat(words[1..])
  }

  /** The scan behind argument-less `str.split()`: `word` is the run of
      non-whitespace characters read so far; a whitespace character or the
      end of the text closes a non-empty run into a word, and empty runs
      are never emitted. */
  function SplitFrom(text: string, word: string): (words: seq<string>)
    requires SpaceFree(word)
    ensures forall i :: 0 <= i < |words| ==> |words[i]| > 0 && SpaceFree(words[i])
    decreases |text|
  {
    var closed := if |word| == 0 then [] else [word];
    if |text| == 0 then closed
    else if IsSpace(text[0]) then closed + SplitFrom(text[1..], [])
    else SplitFrom(text[1..], word + [text[0]])
  }

  /** `text.split()`: the maximal runs of non-whitespace characters, in order. */
  function Split(text: string): (words: seq<string>)
    ensures forall i :: 0 <= i < |words| ==> |words[i]| > 0 && SpaceFree(words[i])
  {
    SplitFrom(text, [])
  }

  lemma StripSpacesCons(c: char, rest: string)
    ensures StripSpaces([c] + rest) == (if IsSpace(c) then [] else [c]) + StripSpaces(rest)
  {
    StripSpacesAppend([c], rest);
    assert [c][..0] == [];
  }

  lemma ConcatCons(w: string, words: seq<string>)
    ensures Concat([w] + words) == w + Concat(words)
  {
    assert ([w] + words)[1..] == words;
  }

  lemma {:induction false} SplitFromConcat(text: string, word: string)
    requires SpaceFree(word)
    ensures Concat(SplitFrom(text, word)) == word + StripSpaces(text)
    decreases |text|
  {
    if |text| == 0 {
      assert word + [] == word;
    } else {
      var c := text[0];
      var rest := text[1..];
      assert text == [c] + rest;
      StripSpacesCons(c, rest);
      if IsSpace(c) {
        SplitFromConcat(rest, []);
        if |word| == 0 {
          assert [] + SplitFrom(rest, []) == SplitFrom(rest, []);
        } else {
          ConcatCons(word, SplitFrom(rest, []));
        }
      } else {
        SplitFromConcat(rest, word + [c]);
      }
    }
  }

  /** The words of `split()` glued back together are exactly the text with its
      whitespace removed, the string the raw-size computation measures. */
  lemma SplitConcat(text: string)
    ensures Concat(Split(text)) == StripSpaces(text)
  {
    SplitFromConcat(text, []);
  }

  /** The words separated by single spaces: the inverse of `Split` on words
      that are non-empty and free of whitespace. */
  function JoinWithSpaces(words: seq<string>): string
  {
    if |words| == 0 then []
    else if |words| == 1 then words[0]
    else words[0] + " " + JoinWithSpaces(words[1..])
  }

  /** Reading a run of non-whitespace characters only extends the open word. */
  lemma {:induction false} SplitFromRun(run: string, rest: string, word: string)
    requires SpaceFree(word) && SpaceFree(run)
    ensures SplitFrom(run + rest, word) == SplitFrom(rest, word + run)
    decreases |run|
  {
    if |run| == 0 {
      assert run + rest == rest;
      assert word + run == word;
    } else {
      assert (run + rest)[0] == run[0];
      assert (run + rest)[1..] == run[1..] + rest;
      assert word + [run[0]] + run[1..] == word + run;
      SplitFromRun(run[1..], rest, word + [run[0]]);
    }
  }

  /** Splitting words joined by spaces gives the words back. */
  lemma {:induction false} SplitJoin(words: seq<string>)
    requires forall i :: 0 <= i < |words| ==> |words[i]| > 0 && SpaceFree(words[i])
    ensures Split(JoinWithSpaces(words)) == words
    decreases |words|
  {
    if |words| == 1 {
      SplitFromRun(words[0], [], []);
      assert words[0] + [] == words[0];
      assert [] + words[0] == words[0];
    } else if |words| > 1 {
      var w := words[0];
      var tail := JoinWithSpaces(words[1..]);
      assert JoinWithSpaces(words) == w + (" " + tail);
      SplitFromRun(w, " " + tail, []);
      assert [] + w == w;
      assert (" " + tail)[0] == ' ' && IsSpace(' ');
      assert (" " + tail)[1..] == tail;
      assert SplitFrom(" " + tail, w) == [w] + SplitFrom(tail, []);
      SplitJoin(words[1..]);
      assert words == [w] + words[1..];
    }
  }

  /** Every character of `s` is whitespace. */
  predicate AllSpace(s: string)
  {
    forall i :: 0 <= i < |s| ==> IsSpace(s[i])
  }

  /** Each word followed by its separator: `words[0] + seps[0] + words[1] +
      seps[1] + ...`. */
  function Interleave(words: seq<string>, seps: seq<string>): string
    requires |seps| == |words|
  {
    if |words| == 0 then [] else words[0] + seps[0] + Interleave(words[1..], seps[1..])
  }

  /** The layouts of a text as `split()` sees it: non-empty, whitespace-free
      words, each followed by whitespace, which is non-empty between two
      words and may be empty after the last. */
  predicate Layout(words: seq<string>, seps: seq<string>)
  {
    && |seps| == |words|
    && (forall i :: 0 <= i < |words| ==> |words[i]| > 0 && SpaceFree(words[i]))
    && (forall i :: 0 <= i < |seps| ==> AllSpace(seps[i]))
    && (forall i :: 0 <= i < |seps| - 1 ==> |seps[i]| > 0)
  }

  /** Whitespace between words is skipped without emitting anything. */
  lemma {:induction false} SplitSkipsSpace(sp: string, rest: string)
    requires AllSpace(sp)
    ensures SplitFrom(sp + rest, []) == SplitFrom(rest, [])
    decreases |sp|
  {
    if |sp| > 0 {
      assert (sp + rest)[0] == sp[0];
      assert (sp + rest)[1..] == sp[1..] + rest;
      SplitSkipsSpace(sp[1..], rest);
    } else {
      assert sp + rest == rest;
    }
  }

  /** A word followed by whitespace is emitted whole, and the scan goes on
      after the whitespace. */
  lemma SplitClosesWord(w: string, sp: string, rest: string)
    requires |w| > 0 && SpaceFree(w) && |sp| > 0 && AllSpace(sp)
    ensures SplitFrom(w + sp + rest, []) == [w] + SplitFrom(rest, [])
  {
    SplitFromRun(w, sp + rest, []);
    assert w + sp + rest == w + (sp + rest);
    assert [] + w == w;
    assert (sp + rest)[0] == sp[0];
    assert (sp + rest)[1..] == sp[1..] + rest;
    SplitSkipsSpace(sp[1..], rest);
  }

  /** The last word, followed by whitespace or nothing, is emitted whole. */
  lemma SplitEndsWord(w: string, sp: string)
    requires |w| > 0 && SpaceFree(w) && AllSpace(sp)
    ensures SplitFrom(w + sp, []) == [w]
  {
    SplitFromRun(w, sp, []);
    assert [] + w == w;
    if |sp| > 0 {
      assert IsSpace(sp[0]);
      SplitSkipsSpace(sp[1..], []);
      assert sp[1..] + [] == sp[1..];
    }
  }

  /** The leading whitespace, then the words each followed by their
      separator, split into exactly those words: `split()` returns the
      maximal runs of non-whitespace characters, whatever whitespace stands
      around and between them. */
  lemma {:induction false} SplitLayout(lead: string, words: seq<string>, seps: seq<string>)
    requires AllSpace(lead) && Layout(words, seps)
    ensures Split(lead + Interleave(words, seps)) == words
    decreases |words|
  {
    SplitSkipsSpace(lead, Interleave(words, seps));
    if |words| > 0 {
      var w, sp := words[0], seps[0];
      var rest := Interleave(words[1..], seps[1..]);
      assert Interleave(words, seps) == w + sp + rest;
      if |words| == 1 {
        assert rest == [];
        SplitEndsWord(w, sp);
        assert w + sp + [] == w + sp;
      } else {
        SplitClosesWord(w, sp, rest);
        assert Layout(words[1..], seps[1..]);
        assert [] + rest == rest;
        SplitLayout([], words[1..], seps[1..]);
        assert words == [w] + words[1..];
      }
    }
  }

  /** Splitting is idempotent up to re-joining: the words of the normalised
      text are the words of the original. */
  lemma SplitNormalises(text: string)
    ensures Split(JoinWithSpaces(Split(text))) == Split(text)
  {
    SplitJoin(Split(text));
  }
}

=== FILE: utf8.dfy ===
/** UTF-8 as section 3 of RFC 3629 defines it, enough to measure
    `len(s.encode('utf-8'))`. Characters are Unicode scalar values, so there
    is no surrogate case. */
module Utf8 {
  import opened Text

  /** An octet. */
  type Byte = b: int | 0 <= b < 256

  /** The number of octets the table in section 3 of RFC 3629 assigns to a
      code point: 1 up to U+007F, 2 up to U+07FF, 3 up to U+FFFF, 4 above. */
  function Width(c: char): (w: nat)
  {
    var v := c as int;
    if v < 0x80 then 1
    else if v < 0x800 then 2
    else if v < 0x10000 then 3
    else 4
  }

  /** A continuation octet, `10xxxxxx`. */
  predicate IsContinuation(b: Byte)
  {
    0x80 <= b < 0xC0
  }

  /** The octets of one character, laid out as in section 3 of RFC 3629: the
      lead octet announces the length, each further octet carries six bits. */
  function EncodeChar(c: char): (bytes: seq<Byte>)
    ensures |bytes| == Width(c)
    ensures |bytes| == 1 <==> bytes[0] < 0x80
    ensures |bytes| == 2 <==> 0xC0 <= bytes[0] < 0xE0
    ensures |bytes| == 3 <==> 0xE0 <= bytes[0] < 0xF0
    ensures |bytes| == 4 <==> 0xF0 <= bytes[0] < 0xF8
    ensures forall i :: 1 <= i < |bytes| ==> IsContinuation(bytes[i])
  {
    var v := c as int;
    if v < 0x80 then [v]
    else if v < 0x800 then [0xC0 + v / 64, 0x80 + v % 64]
    else if v < 0x10000 then [0xE0 + v / 4096, 0x80 + (v / 64) % 64, 0x80 + v % 64]
    else [0xF0 + v / 262144, 0x80 + (v / 4096) % 64, 0x80 + (v / 64) % 64, 0x80 + v % 64]
  }

  /** The code point a well-formed one-character octet sequence stands for:
      the payload bits of the lead octet followed by six bits per
      continuation octet. */
  function DecodeChar(bytes: seq<Byte>): int
    requires 1 <= |bytes| <= 4
  {
    var b := seq(|bytes|, i requires 0 <= i < |bytes| => bytes[i] as int);
    if |b| == 1 then b[0]
    else if |b| == 2 then (b[0] - 0xC0) * 64 + (b[1] - 0x80)
    else if |b| == 3 then ((b[0] - 0xE0) * 64 + (b[1] - 0x80)) * 64 + (b[2] - 0x80)
    else (((b[0] - 0xF0) * 64 + (b[1] - 0x80)) * 64 + (b[2] - 0x80)) * 64 + (b[3] - 0x80)
  }

  /** Decoding the octets of a character gives the character back, so the
      encoding loses nothing. */
  lemma DecodeEncodeChar(c: char)
    ensures DecodeChar(EncodeChar(c)) == c as int
  {
    var v := c as int;
    if v >= 0x80 {
      assert v / 4096 == (v / 64) / 64;
      assert v / 262144 == (v / 4096) / 64;
      assert v == (v / 64) * 64 + v % 64;
      assert v / 64 == (v / 4096) * 64 + (v / 64) % 64;
      assert v / 4096 == (v / 262144) * 64 + (v / 4096) % 64;
    }
  }

  /** The sum of the RFC 3629 widths of the characters. */
  function SumOfWidths(s: string): nat
  {
    if |s| == 0 then 0 else Width(s[0]) + SumOfWidths(s[1..])
  }

  /** `s.encode('utf-8')`: the octets of each character, in order. Its length
      is the sum of the per-character widths, hence between one and four
      octets per character. */
  function Encode(s: string): (bytes: seq<Byte>)
    ensures |bytes| == SumOfWidths(s)
    ensures |s| <= |bytes| <= 4 * |s|
  {
    if |s| == 0 then [] else EncodeChar(s[0]) + Encode(s[1..])
  }

  /** Encoding a concatenation is concatenating the encodings. */
  lemma {:induction false} EncodeAppend(a: string, b: string)
    ensures Encode(a + b) == Encode(a) + Encode(b)
  {
    if |a| == 0 {
      assert a + b == b;
    } else {
      assert (a + b)[0] == a[0];
      assert (a + b)[1..] == a[1..] + b;
      EncodeAppend(a[1..], b);
    }
  }

  /** The integer part of `compute_raw_size`: the UTF-8 length of the text
      once its whitespace is removed. */
  function RawByteCount(text: string): (n: nat)
    ensures n == SumOfWidths(StripSpaces(text))
  {
    |Encode(StripSpaces(text))|
  }

  /** The raw byte count is the sum of the widths of the non-whitespace
      characters, so it lies between their number and four times it; text
      of whitespace only counts zero bytes. */
  lemma RawByteCountBounds(text: string)
    ensures RawByteCount(text) == SumOfWidths(StripSpaces(text))
    ensures |StripSpaces(text)| <= RawByteCount(text) <= 4 * |StripSpaces(text)|
    ensures RawByteCount(text) == 0 <==> forall i :: 0 <= i < |text| ==> IsSpace(text[i])
  {
    StripSpacesEmpty(text);
  }
}
